=== FILE: README.md ===
# passport_upload — a Dafny model of the request logic

The system lets students upload a passport photograph for a department and matric
number, and lets an administrator list the uploads and download a department's
photographs as one zip archive. This project models the decision logic inside its
handlers as pure Dafny functions and proves properties about them:

- the student record store (`backend/models/Student.js`). It is an abstract sequence of
  documents with required fields, a unique matric number and a `createdAt` stamp.
  `find` filters it and `sort({ createdAt: -1 })` orders it newest first (`student.dfy`);
- the admin controller (`adminController.js`, in `admin_controller.dfy`):
  - the listing filter;
  - the fixed 404/405 outcome of `downloadPassport`;
  - the planning half of `batchDownloadPassports`: query validation, the zip name and
    `Content-Disposition` header, the archive entry name (matric number plus the extension
    the regular expression `/\.[a-zA-Z0-9]+$/` finds in the URL's pathname), and which
    records contribute an entry;
- the upload controller (`uploadController.js`, in `upload_controller.dfy`):
  - the request checks in order;
  - the image host's upload options;
  - the record built from the request and the upload result;
  - the mapping of every outcome to a status and message;
- the admin page (`Admin.jsx`, in `admin_page.dfy`):
  - the listing URL;
  - the department options, de-duplicated in first-occurrence order;
  - the render priority;
  - the batch button's guard, and the name the downloaded file is saved under, taken from
    `/filename="(.+)"/` with a fallback;
- the upload form's `handleSubmit` (`Home.jsx`, in `home_page.dfy`);
- properties that span these pieces (`flows.dfy`). Examples: the page recovers exactly
  the zip name the server put in its header, and a record uploaded from the form is
  listed under its department.

`wrappers.dfy`, `text.dfy` and `http.dfy` hold the shared `Option`/`Result` types, the
ECMAScript string operations the code relies on, and the reply datatypes:

- JavaScript truthiness;
- `String.prototype.trim` with its WhiteSpace and LineTerminator sets;
- the decimal rendering of `Date.now()` inside a template literal.

Inputs the code receives from outside are parameters:

- the clock readings `now` and `saveTime`;
- the image host's answer `upload`;
- the URL parser's pathname `pathnameOf` (None when `new URL` throws);
- whether fetching a record's image answers, `fetchOk`;
- `encodeURIComponent` as `encode`;
- the first entry of the department list, `firstDepartment`.

What the batch download does, as written:

- it filters by department only, with no level;
- it starts every fetch at once through `Promise.all`, with no fixed-size groups;
- it has no abort on client disconnect and no timeout;
- it names the zip `<department>_passports.zip`;
- the controller defines no delete handler.

## Model

| member | source | states |
|---|---|---|
| StudentModel.MissingPaths | backend/models/Student.js:4-6 | the required paths a draft leaves unset: "department", "matricNumber" and "passport" are each listed exactly when that field is empty, and nothing else is listed |
| StudentModel.Insert | backend/models/Student.js:3-8 | a save fails exactly when a required field is missing (validation error, reported first) or the matric number is already stored (duplicate key); otherwise exactly one document is appended, holding the draft's fields with `createdAt` defaulting to the clock; a valid store stays valid (required fields, distinct matric numbers, fresh distinct ids) |
| StudentModel.EmptyStoreValid | backend/models/Student.js:3-8 | an empty collection meets the schema's invariants, so every store reached by saves does |
| StudentModel.Find | backend/controllers/adminController.js:14 | `find(filter)` returns exactly the stored documents the filter matches, and no more of them than are stored |
| StudentModel.FindCounts | backend/controllers/adminController.js:14 | `find` returns each matching document as many times as it is stored and no non-matching one |
| StudentModel.InsertNewestFirst | backend/controllers/adminController.js:14 | placing a document into a sorted listing adds exactly that document, and it lands first or after the old head |
| StudentModel.InsertKeepsNewestFirst | backend/controllers/adminController.js:14 | insertion keeps a listing in descending `createdAt` order |
| StudentModel.SortNewestFirst | backend/controllers/adminController.js:14 | `sort({ createdAt: -1 })` yields a permutation of its input in descending `createdAt` order |
| StudentModel.List | backend/controllers/adminController.js:14 | the listing is newest first and holds each matching document as often as the store does, and nothing else |
| StudentModel.LatestHeads | backend/controllers/adminController.js:14 | in a newest-first listing, a document stamped later than every other comes first |
| StudentModel.LatestListedFirst | backend/controllers/adminController.js:14 | a matching document stamped later than every other heads the listing |
| StudentModel.FreshRecordListedFirst | backend/models/Student.js:7 | a document saved without `createdAt` after the clock passed every stored stamp heads every listing that matches it |
| AdminController.ListingFilter | backend/controllers/adminController.js:12-13 | with a truthy department the filter is exactly that department, otherwise it is the empty filter |
| AdminController.GetAllStudents | backend/controllers/adminController.js:10-21 | 200 with `success: true`; the students are newest first, and each stored document of the requested department appears exactly as many times as it is stored, with no other document; with no department, a permutation of the whole store |
| AdminController.FindById | backend/controllers/adminController.js:28 | `findById` finds a stored document with that id, or reports that none has it |
| AdminController.DownloadPassport | backend/controllers/adminController.js:25-44 | never succeeds: 404 "Student not found" exactly when no document has the id, 405 with the not-supported message exactly when one does |
| AdminController.ZipName | backend/controllers/adminController.js:67 | the zip name is the department followed by `_passports.zip` |
| AdminController.ContentDisposition | backend/controllers/adminController.js:65-68 | the header value is `attachment; filename="`, the zip name and a closing '"'; Node accepts it exactly when it accepts the department |
| AdminController.HeaderSafeConcat | backend/controllers/adminController.js:65-68 | Node accepts a concatenation as a header value exactly when it accepts both parts |
| AdminController.ExtensionSearch | backend/controllers/adminController.js:84 | the regular-expression scan returns the leftmost index where a dot followed by letters and digits runs to the end of the pathname, or None when there is no such index |
| AdminController.MatchExtension | backend/controllers/adminController.js:84 | a match is an extension (one dot, then at least one ASCII letter or digit) and is a suffix of the pathname |
| AdminController.LastDot | backend/controllers/adminController.js:84 | the index of the last '.' of a string, or None when it has none |
| AdminController.MatchIsLastDotSuffix | backend/controllers/adminController.js:84-86 | the regular expression matches exactly the suffix from the pathname's last dot when that suffix is a dot followed by ASCII letters and digits, and matches nothing otherwise |
| AdminController.ExtensionAtDot | backend/controllers/adminController.js:84 | an extension starting at a dot of the pathname is a place where the expression matches |
| AdminController.Extension | backend/controllers/adminController.js:82-90 | the extension is the last-dot suffix when that is alphanumeric after the dot, and ".jpg" when it is not or the URL does not parse; it always starts with its only dot |
| AdminController.LastDotOfExtension | backend/controllers/adminController.js:91 | in `matricNumber + ext` the last dot is the one that starts `ext` |
| AdminController.EntryNameInjective | backend/controllers/adminController.js:91 | an entry name determines both its matric number and its extension, so distinct matric numbers give distinct entry names |
| AdminController.ResolveItem | backend/controllers/adminController.js:77-105 | a record without a passport is skipped; one with a passport is appended under its entry name when its fetch answers and logged as failed when the fetch throws |
| AdminController.ResolveAll | backend/controllers/adminController.js:109 | one resolved outcome per record, in record order |
| AdminController.EntriesExactly | backend/controllers/adminController.js:79-104 | a name is in the archive exactly when some record has a passport, its fetch answers and the name is its entry name |
| AdminController.EntriesBound | backend/controllers/adminController.js:79 | the archive has no more entries than there are records with a passport |
| AdminController.EntriesCount | backend/controllers/adminController.js:91-95 | with distinct matric numbers, the archive has exactly one entry per record with a passport whose fetch answers |
| AdminController.BatchDownloadPassports | backend/controllers/adminController.js:47-121 | 400 "Department is required" without a department; 404 when no record has the department; 500 when Node refuses the header value. Otherwise the zip headers carry `<department>_passports.zip` and there is one outcome per record of the department. The archive is finalized after every record has resolved and holds exactly the entry names of the contributing records, at most one per record |
| UploadController.Validate | backend/controllers/uploadController.js:7-16 | a missing file gives "Passport is required" before the fields are looked at; with a file, "All fields are required" exactly when department or matric number is falsy |
| UploadController.UploadParamsFor | backend/controllers/uploadController.js:22-28 | the upload goes to folder "passports" as an image, with a public id made of the matric number, '_' and digits that read back as the clock reading, with no leading zero unless the reading is 0 |
| UploadController.DraftFor | backend/controllers/uploadController.js:39-43 | the record carries the request's department and matric number and the upload's URL as its passport, and no `createdAt`; it has no missing required path exactly when department, matric number and URL are all non-empty |
| UploadController.PublicId | backend/controllers/uploadController.js:25 | the public id is the matric number, an underscore and the clock reading in decimal without a leading zero (unless the reading is 0), which can be read back from the id |
| UploadController.DbErrorInfo | backend/models/Student.js:5 | a refused save carries code 11000 exactly when it is a duplicate matric number |
| UploadController.ErrorReply | backend/controllers/uploadController.js:48-58 | code 11000 gives 400 "Matric number already exists"; every other error gives 500 "Server error" carrying the error's message |
| UploadController.CreateStudent | backend/controllers/uploadController.js:4-59 | a failed check answers 400 before any upload or store write. Otherwise the upload goes to folder "passports" as an image. 201 with `success: true` exactly when the upload succeeds with a URL and the matric number is new, and then exactly one record is added, with the request's fields and the upload's `secure_url`. A duplicate answers 400 after the upload. An upload that answers without a URL fails the required-path check and answers 500 "Server error". An upload error maps through the catch block. Failures leave the store unchanged, and a valid store stays valid |
| AdminPage.ListingUrl | admin/src/pages/Admin.jsx:19-25 | with no department selected the listing URL has no query; otherwise it is the students path with `?department=` and the encoded department |
| AdminPage.ListingUrlInjective | admin/src/pages/Admin.jsx:19-25 | for an injective `encodeURIComponent`, distinct selections request distinct URLs |
| AdminPage.DepartmentsOf | admin/src/pages/Admin.jsx:29 | `students.map(s => s.department)`, element by element |
| AdminPage.DepartmentsOfMembers | admin/src/pages/Admin.jsx:29 | the mapped departments are exactly those of some listed student |
| AdminPage.FirstIndex | admin/src/pages/Admin.jsx:28-30 | the first position at which a value occurs |
| AdminPage.FirstIndexAt | admin/src/pages/Admin.jsx:28-30 | a value absent before position k first occurs at k |
| AdminPage.AppendFirstOccurrence | admin/src/pages/Admin.jsx:28-30 | appending a value at its first occurrence keeps the options in first-occurrence order |
| AdminPage.UniqueDepartments | admin/src/pages/Admin.jsx:28-30 | the department options have no duplicates, are exactly the departments of listed students, and keep first-occurrence order |
| AdminPage.InitialShowsLoading | admin/src/pages/Admin.jsx:7-11 | the page mounts on the loading view with the batch button disabled |
| AdminPage.StartFetch | admin/src/pages/Admin.jsx:16-17 | starting a fetch shows the loading view, clears the error, and keeps rows, options and selection |
| AdminPage.FetchStudents | admin/src/pages/Admin.jsx:14-39 | a failed request shows "Failed to fetch students" and keeps the old rows and options. A successful one shows "No uploads found." for an empty listing and the table otherwise, with duplicate-free options drawn from the listing in first-occurrence order. Loading ends either way |
| AdminPage.LineEnd | admin/src/pages/Admin.jsx:60 | the first line terminator at or after a position, where `.` stops matching |
| AdminPage.LastQuote | admin/src/pages/Admin.jsx:60 | the last '"' in a range, where the greedy `.+` backs off to |
| AdminPage.CaptureAt | admin/src/pages/Admin.jsx:60 | a match starting at a position is `filename="`, a capture of at least one non-line-terminator character, and a closing '"' |
| AdminPage.CaptureAtExtent | admin/src/pages/Admin.jsx:60 | after `filename="`, a match fails exactly when no '"' follows the capture's first character on the same line; a match is greedy, with no '"' after its closing quote on that line |
| AdminPage.FilenameSearch | admin/src/pages/Admin.jsx:60 | the leftmost match's capture is non-empty and holds no line terminator |
| AdminPage.FilenameSearchNone | admin/src/pages/Admin.jsx:60 | the scan finds nothing exactly when no position starts a match |
| AdminPage.FilenameSearchLeftmost | admin/src/pages/Admin.jsx:60 | a found capture is the one of a position with no match starting before it |
| AdminPage.MatchFilename | admin/src/pages/Admin.jsx:60 | `match` is null exactly when no position starts a match; otherwise the capture is that of the leftmost match |
| AdminPage.SaveName | admin/src/pages/Admin.jsx:57-62 | the name is `<department>_passports.zip` when no non-empty header is visible and when the header does not match; it is the capture when a non-empty header matches |
| AdminPage.BatchUrl | admin/src/pages/Admin.jsx:51-55 | the batch URL is the download path with `?department=` and the encoded department |
| AdminPage.BatchDisabled | admin/src/pages/Admin.jsx:101 | the button is enabled exactly when a department is selected and the listing is non-empty, and then the empty view is not shown |
| AdminPage.Render | admin/src/pages/Admin.jsx:107-113 | loading wins, then a non-empty error shown as is, then "No uploads found." for an empty listing; otherwise the table of the listed rows |
| AdminPage.HandleBatchDownload | admin/src/pages/Admin.jsx:48-73 | with no department, the alert "Select a department first" and no request; a failed request alerts "Batch download failed"; otherwise the blob is saved under `SaveName` after a request to the encoded batch URL |
| HomePage.HandleSubmit | frontend/src/pages/Home.jsx:13-60 | both messages are cleared first. A blank matric number gives "Please enter matric number" and sends nothing, ahead of a missing passport ("Please upload passport"). Otherwise the untrimmed fields are sent. Success shows the server's message and resets to the first department with an empty matric and no passport. Failure keeps the fields and shows the server's message or "Upload failed" / "An error occurred. Please try again." |
| HomePage.FailureMessage | frontend/src/pages/Home.jsx:51-56 | a failure always shows a non-empty message: the server's when it is truthy, else "Upload failed" for an answered request and "An error occurred. Please try again." when the request threw |
| Text.Trim | frontend/src/pages/Home.jsx:18 | `trim` returns a contiguous part of the string with only white space cut on either side, and the result neither starts nor ends with white space |
| Text.TrimStart | frontend/src/pages/Home.jsx:18 | `trim` drops exactly the leading white space |
| Text.TrimEnd | frontend/src/pages/Home.jsx:18 | `trim` drops exactly the trailing white space |
| Text.TrimEmptyIffBlank | frontend/src/pages/Home.jsx:18 | `!s.trim()` holds exactly when every character of s is white space |
| Text.Decimal | backend/controllers/uploadController.js:25 | the rendering of a number is a non-empty digit string with no leading zero except for 0 |
| Text.DecimalRoundTrip | backend/controllers/uploadController.js:25 | reading the decimal rendering back gives the number |
| Flows.SearchSkips | admin/src/pages/Admin.jsx:60 | the scan passes over positions where no match starts |
| Flows.NoCaptureWithoutF | admin/src/pages/Admin.jsx:60 | no match starts at a character other than 'f' |
| Flows.CaptureToFinalQuote | admin/src/pages/Admin.jsx:60 | after `filename="`, with no line terminator following, the capture runs to the final quote |
| Flows.ZipNameNoLineTerminator | backend/controllers/adminController.js:67 | a department without line terminators gives a zip name without them |
| Flows.DispositionParts | backend/controllers/adminController.js:65-68 | the header value is `attachment; `, then `filename="`, then the zip name and a closing '"' |
| Flows.NoMatchInLead | admin/src/pages/Admin.jsx:60 | no match starts inside a leading part that contains no 'f' |
| Flows.DispositionRoundTrip | admin/src/pages/Admin.jsx:60-61 | from the header the controller sets for department D, the page's regular expression recovers exactly `D_passports.zip`, for any D without line terminators |
| Flows.SafeDispositionHasNoLineTerminator | backend/controllers/adminController.js:65-68 | a department whose header value Node accepts has no line terminator |
| Flows.BatchDownloadSavedUnderZipName | admin/src/pages/Admin.jsx:57-62 | whenever the controller streams an archive, the page saves it under `<department>_passports.zip`, whether or not the browser exposes the header |
| Flows.EnabledBatchFindsStudents | admin/src/pages/Admin.jsx:101 | when the page shows the server's listing for the selected department and the button is enabled, the batch request is neither refused with 400 nor with 404 |
| Flows.FormRequestsPassValidation | frontend/src/pages/Home.jsx:29-32 | every request the form sends, with a department selected, passes the controller's checks |
| Flows.UploadedRecordIsListed | backend/controllers/uploadController.js:39-47 | a record created from a form submission is listed under its department with the matric number as typed and the uploaded URL |
| Flows.FindKeepsDistinctMatrics | backend/controllers/adminController.js:55 | `find` keeps matric numbers pairwise distinct |
| Flows.ContributingSet | backend/controllers/adminController.js:79-95 | the records that contribute an entry: those with a passport whose fetch answers |
| Flows.ContributingOfDepartment | backend/controllers/adminController.js:55 | over stored records, which all carry a passport, the department's contributing records are those whose fetch answers |
| Flows.DistinctMatricsTail | backend/models/Student.js:5 | dropping the first record keeps matric numbers distinct |
| Flows.HeadNotInTail | backend/models/Student.js:5 | with distinct matric numbers the first record does not recur |
| Flows.CountContributingIsSetSize | backend/controllers/adminController.js:79-95 | with distinct matric numbers, counting contributing records gives the size of their set |
| Flows.BatchEntryCount | backend/controllers/adminController.js:77-111 | over a valid store, the streamed archive has exactly one entry per record of the department whose fetch answers |

## Left out

- Fetching with axios, the zip bytes archiver produces (zlib level 9) and piping to the
  response are foreign libraries. The archive is the set of entry names appended to it,
  and `fetchOk` says whether a record's fetch answers.
- `Promise.all` runs concurrently and archiver receives entries in completion order. The
  model has one outcome per record and the archive as a set, so entry order is not
  stated.
- A stream that errors after its entry was appended leaves a partial entry. The model
  records only that the name is present; the contents cannot be stated without archiver.
- If archiver fails after the headers went out, the response ends with 500 or is cut
  short. This is not modelled.
- The image host's upload, streamifier and the MongoDB connection are I/O. The upload's
  answer is the `upload` parameter; the upload options are the `uploaded` field of
  `CreateOutcome`.
- `new URL(...)` parsing per the WHATWG URL Standard is the `pathnameOf` parameter.
  `encodeURIComponent` is the `encode` parameter, assumed injective where a lemma needs
  it.
- Errors raised by the database itself (lost connection, a `findById` cast error on a
  malformed id) make the handlers answer 500 "Server error". Stores here never fail, so
  these paths are not modelled.
- The exact wording of MongoDB's and Mongoose's error messages is not modelled. Only the
  `code` is inspected by the controller.
- Query parameters and multipart fields that arrive as arrays or objects are not
  modelled: the department and matric number are strings or absent. Express's default
  query parser turns `?department[$ne]=x` into an object. That object is truthy, so
  `Student.find({ department })` runs it as a query operator, and the batch then zips
  other departments' passports under `[object Object]_passports.zip`. Multer turns
  repeated or bracketed field names into arrays or objects. These pass the truthiness
  check, and the save then fails to cast them, answering 500 after the image was
  uploaded. Neither outcome is stated by `AdminController.BatchDownloadPassports` or
  `UploadController.CreateStudent`.
- Record deletion is not modelled: `adminRoutes.js` imports `deleteStudent`, but the
  controller does not define it (see "## Observations" for what this does to loading).
- Route wiring, CORS and static configuration in `server.js`, and JSX markup are not
  modelled. The image preview and the per-row download button, which only alerts, are
  left out too.
- StudentModel.SortNewestFirst: documents with equal `createdAt` may come back from
  MongoDB in any order. This definition fixes one such order, and the contracts state
  only the descending order and the multiset.
- HomePage.HandleSubmit: the intermediate state while the request is in flight
  (`loading` true) is not returned. Only the state after the request settles is.
- Text.Decimal: JavaScript writes numbers from 10^21 up in exponent notation. The model
  writes every natural number in plain digits; clock readings in milliseconds stay far
  below that bound.
- Flows.BatchEntryCount: when two records of a department share a matric number (a store
  that is not valid), their entries collapse into one name in the set. Only the bound of
  `AdminController.EntriesBound` is stated then.

## Observations

No defect was found in the modelled logic. Outside it, `backend/routes/adminRoutes.js:3-8`
imports `deleteStudent` by name from `adminController.js`, which exports no such function.
The backend is an ECMAScript module (`server.js:13` uses `import.meta.url`). In a module, a
named import the target does not export is a SyntaxError at link time, so the backend as
written does not start. The model treats the handlers as reachable, as they would be once
that import is removed.

Three observations about the modelled behaviour follow; the contracts above state them.

- The server does not list `Content-Disposition` in `Access-Control-Expose-Headers`,
  so a cross-origin page usually cannot read it. The fallback name is the same string
  (`Flows.BatchDownloadSavedUnderZipName`).
- A duplicate matric number is detected only at save, after the image was uploaded.
  That image stays on the image host (`UploadController.CreateStudent`, field
  `uploaded`).
- After a department is selected, the options are recomputed from the filtered
  listing, so the drop-down offers only that department and "All"
  (`AdminPage.FetchStudents`).

=== FILE: admin_controller.dfy ===
/** The admin controller: the listing filter of `getAllStudents`, the fixed outcome of
    `downloadPassport`, and the planning half of `batchDownloadPassports` (query
    validation, zip name, per-record entry names, which records contribute an entry).
    Fetching bytes and producing the zip stream are outside the model: the archive is
    the set of entry names appended to it, and each fetch's success is an input. */
module AdminController {
  import opened Wrappers
  import opened Text
  import opened Http
  import opened StudentModel

  // ---------------------------------------------------------------------------
  // getAllStudents

  /** The `{ success: true, students }` reply of the listing endpoint. */
  datatype ListReply = ListReply(status: nat, success: bool, students: seq<Student>)

  /** `department ? { department } : {}` */
  function ListingFilter(department: Option<string>): (q: Query)
    ensures q.All? <==> !Truthy(department)
    ensures q.ByDepartment? ==> q.department == department.value
  {
    if Truthy(department) then ByDepartment(department.value) else All
  }

  /** Lists the stored documents of the requested department (all of them when no
      department is given), newest first. */
  function GetAllStudents(st: Store, department: Option<string>): (r: ListReply)
    ensures r.status == 200 && r.success
    ensures NewestFirst(r.students)
    ensures forall s :: s in r.students <==>
              s in st.records && (Truthy(department) ==> s.department == department.value)
    ensures forall s :: multiset(r.students)[s] ==
              if Matches(ListingFilter(department), s) then multiset(st.records)[s] else 0
    ensures !Truthy(department) ==> multiset(r.students) == multiset(st.records)
  {
    var students := List(st, ListingFilter(department));
    assert !Truthy(department) ==> multiset(students) == multiset(st.records);
    ListReply(200, true, students)
  }

  // ---------------------------------------------------------------------------
  // downloadPassport

  /** `Student.findById(id)` */
  function FindById(records: seq<Student>, id: RecordId): (r: Option<Student>)
    ensures r.Some? ==> r.value in records && r.value.id == id
    ensures r.None? ==> forall s :: s in records ==> s.id != id
  {
    if records == [] then None
    else if records[0].id == id then Some(records[0])
    else FindById(records[1..], id)
  }

  const NotSupportedMessage: string := "Direct download not supported. Use the Cloudinary URL."

  /** Never serves file content: 404 for an unknown identifier, 405 for every known one. */
  function DownloadPassport(st: Store, id: RecordId): (r: MessageReply)
    ensures !r.success && r.error.None?
    ensures r.status == 404 <==> forall s :: s in st.records ==> s.id != id
    ensures r.status == 405 <==> exists s :: s in st.records && s.id == id
    ensures r.status == 404 ==> r.message == "Student not found"
    ensures r.status == 405 ==> r.message == NotSupportedMessage
  {
    match FindById(st.records, id)
    case None => MessageReply(404, false, "Student not found", None)
    case Some(_) => MessageReply(405, false, NotSupportedMessage, None)
  }

  // ---------------------------------------------------------------------------
  // batchDownloadPassports: entry names

  const DefaultExtension: string := ".jpg"

  /** A dot followed by one or more ASCII letters or digits, and nothing else. */
  predicate IsExtension(e: string) {
    |e| >= 2 && e[0] == '.' && forall k :: 1 <= k < |e| ==> IsAsciiAlnum(e[k])
  }

  /** `/\.[a-zA-Z0-9]+$/` matches `p` at index `i`: without the multiline flag `$` is the
      end of the input, so the dot must be followed by letters and digits up to the end. */
  predicate ExtensionMatchesAt(p: string, i: nat) {
    i + 1 < |p| && p[i] == '.' && forall k :: i < k < |p| ==> IsAsciiAlnum(p[k])
  }

  /** The regular-expression engine's scan: the leftmost index at or after `i` where
      the expression matches. */
  function ExtensionSearch(p: string, i: nat): (r: Option<nat>)
    decreases |p| - i
    ensures r.Some? ==> i <= r.value < |p| && ExtensionMatchesAt(p, r.value)
    ensures r.None? ==> forall k :: i <= k < |p| ==> !ExtensionMatchesAt(p, k)
  {
    if i >= |p| then None
    else if ExtensionMatchesAt(p, i) then Some(i)
    else ExtensionSearch(p, i + 1)
  }

  /** `pathname.match(/\.[a-zA-Z0-9]+$/)`, reduced to the matched text. */
  function MatchExtension(p: string): (m: Option<string>)
    ensures m.Some? ==> IsExtension(m.value) && |m.value| <= |p| && p[|p| - |m.value|..] == m.value
  {
    match ExtensionSearch(p, 0)
    case None => None
    case Some(i) => Some(p[i..])
  }

  /** The index of the last '.' in `p`. */
  function LastDot(p: string): (r: Option<nat>)
    ensures r.Some? ==> r.value < |p| && p[r.value] == '.'
    ensures r.Some? ==> forall k :: r.value < k < |p| ==> p[k] != '.'
    ensures r.None? ==> forall k :: 0 <= k < |p| ==> p[k] != '.'
  {
    if p == [] then None
    else if p[|p| - 1] == '.' then Some(|p| - 1)
    else LastDot(p[..|p| - 1])
  }

  /** Reference definition: the suffix from the last '.', when it is an extension. */
  function LastDotSuffix(p: string): Option<string> {
    match LastDot(p)
    case None => None
    case Some(k) => if IsExtension(p[k..]) then Some(p[k..]) else None
  }

  /** The regular expression finds exactly the last-dot suffix, when that suffix is a
      non-empty run of ASCII letters and digits, and nothing otherwise. */
  lemma MatchIsLastDotSuffix(p: string)
    ensures MatchExtension(p) == LastDotSuffix(p)
  {
    match ExtensionSearch(p, 0)
    case Some(i) =>
      assert ExtensionMatchesAt(p, i);
      var last := LastDot(p);
      assert last.Some?;
      assert last.value == i by {
        assert last.value <= i;
        assert forall k :: i < k < |p| ==> p[k] != '.';
      }
    case None =>
      match LastDot(p)
      case None =>
      case Some(k) => ExtensionAtDot(p, k);
  }

  /** An extension that starts at a dot of `p` is where the expression matches. */
  lemma ExtensionAtDot(p: string, k: nat)
    requires k < |p| && p[k] == '.'
    ensures IsExtension(p[k..]) ==> ExtensionMatchesAt(p, k)
  {
    if IsExtension(p[k..]) {
      assert forall j :: k < j < |p| ==> p[j] == p[k..][j - k];
    }
  }

  /** The extension of one archive entry: what the regular expression finds in the URL's
      pathname, or ".jpg" when it finds nothing or the URL does not parse (None). */
  function Extension(pathname: Option<string>): (ext: string)
    ensures IsExtension(ext)
    ensures ext == match pathname
                   case None => DefaultExtension
                   case Some(p) => LastDotSuffix(p).GetOr(DefaultExtension)
  {
    match pathname
    case None => DefaultExtension
    case Some(p) =>
      MatchIsLastDotSuffix(p);
      MatchExtension(p).GetOr(DefaultExtension)
  }

  /** `${student.matricNumber}${ext}` */
  function EntryName(matricNumber: string, ext: string): string {
    matricNumber + ext
  }

  /** An entry name determines both the matric number and the extension it was built
      from: the extension is the suffix from the name's last dot. */
  lemma EntryNameInjective(m1: string, e1: string, m2: string, e2: string)
    requires IsExtension(e1) && IsExtension(e2)
    requires EntryName(m1, e1) == EntryName(m2, e2)
    ensures m1 == m2 && e1 == e2
  {
    var n := EntryName(m1, e1);
    assert n[|m1| ..] == e1;
    assert n[|m2| ..] == e2;
    LastDotOfExtension(m1, e1);
    LastDotOfExtension(m2, e2);
    assert m1 == n[..|m1|] == m2;
  }

  /** The last dot of `m + e` is the dot that starts the extension `e`. */
  lemma LastDotOfExtension(m: string, e: string)
    requires IsExtension(e)
    ensures LastDot(m + e) == Some(|m|)
  {
    var n := m + e;
    assert n[|m|] == e[0];
    assert forall k :: |m| < k < |n| ==> n[k] == e[k - |m|];
    var last := LastDot(n);
    assert last.Some?;
  }

  // ---------------------------------------------------------------------------
  // batchDownloadPassports: which records contribute an entry

  /** How one record resolves in `addImageToArchive`: no passport resolves at once;
      a fetch that throws is logged and resolves; a fetch that answers has its stream
      appended under the entry name before it resolves. */
  datatype ItemOutcome = Skipped | FetchFailed(name: string) | Appended(name: string)

  function ResolveItem(s: Student, pathnameOf: string -> Option<string>, fetchOk: Student -> bool): (o: ItemOutcome)
    ensures o.Skipped? <==> s.passport == ""
    ensures o.Appended? <==> s.passport != "" && fetchOk(s)
    ensures !o.Skipped? ==> o.name == EntryName(s.matricNumber, Extension(pathnameOf(s.passport)))
  {
    if s.passport == "" then Skipped
    else
      var name := EntryName(s.matricNumber, Extension(pathnameOf(s.passport)));
      if fetchOk(s) then Appended(name) else FetchFailed(name)
  }

  /** `Promise.all(students.map(addImageToArchive))`: one outcome per record. */
  function ResolveAll(students: seq<Student>, pathnameOf: string -> Option<string>, fetchOk: Student -> bool): (os: seq<ItemOutcome>)
    ensures |os| == |students|
    ensures forall i :: 0 <= i < |students| ==> os[i] == ResolveItem(students[i], pathnameOf, fetchOk)
  {
    if students == [] then []
    else [ResolveItem(students[0], pathnameOf, fetchOk)] + ResolveAll(students[1..], pathnameOf, fetchOk)
  }

  /** The entry names appended to the archive. */
  function Entries(os: seq<ItemOutcome>): set<string> {
    if os == [] then {}
    else (if os[0].Appended? then {os[0].name} else {}) + Entries(os[1..])
  }

  /** The entry name a record contributes when its fetch succeeds. */
  function EntryOf(s: Student, pathnameOf: string -> Option<string>): string {
    EntryName(s.matricNumber, Extension(pathnameOf(s.passport)))
  }

  /** A record contributes an entry exactly when it has a passport and its fetch answers. */
  predicate Contributes(s: Student, fetchOk: Student -> bool) {
    s.passport != "" && fetchOk(s)
  }

  /** Number of records with a passport. */
  function CountWithPassport(students: seq<Student>): nat {
    if students == [] then 0
    else (if students[0].passport != "" then 1 else 0) + CountWithPassport(students[1..])
  }

  /** Number of records that contribute an entry. */
  function CountContributing(students: seq<Student>, fetchOk: Student -> bool): nat {
    if students == [] then 0
    else (if Contributes(students[0], fetchOk) then 1 else 0) + CountContributing(students[1..], fetchOk)
  }

  /** The archive holds exactly the entry names of the contributing records. */
  lemma {:induction false} EntriesExactly(students: seq<Student>, pathnameOf: string -> Option<string>, fetchOk: Student -> bool, n: string)
    ensures n in Entries(ResolveAll(students, pathnameOf, fetchOk)) <==>
            exists s :: s in students && Contributes(s, fetchOk) && n == EntryOf(s, pathnameOf)
  {
    if students != [] {
      var os := ResolveAll(students, pathnameOf, fetchOk);
      var s0, tail := students[0], students[1..];
      assert os[1..] == ResolveAll(tail, pathnameOf, fetchOk);
      assert Entries(os) == (if os[0].Appended? then {os[0].name} else {}) + Entries(os[1..]);
      EntriesExactly(tail, pathnameOf, fetchOk, n);
      if n in Entries(os) {
        if !(os[0].Appended? && n == os[0].name) {
          var s :| s in tail && Contributes(s, fetchOk) && n == EntryOf(s, pathnameOf);
          assert s in students;
        } else {
          assert s0 in students;
        }
      } else {
        forall s | s in students && Contributes(s, fetchOk)
          ensures n != EntryOf(s, pathnameOf)
        {
          if s != s0 {
            assert s in tail;
          }
        }
      }
    }
  }

  /** Records without a passport contribute nothing, so the archive has at most one
      entry per record with a passport. */
  lemma {:induction false} EntriesBound(students: seq<Student>, pathnameOf: string -> Option<string>, fetchOk: Student -> bool)
    ensures |Entries(ResolveAll(students, pathnameOf, fetchOk))| <= CountWithPassport(students)
  {
    if students != [] {
      var os := ResolveAll(students, pathnameOf, fetchOk);
      assert os[1..] == ResolveAll(students[1..], pathnameOf, fetchOk);
      EntriesBound(students[1..], pathnameOf, fetchOk);
    }
  }

  /** With pairwise distinct matric numbers no two entries collide, so the archive has
      exactly one entry per contributing record. */
  lemma {:induction false} EntriesCount(students: seq<Student>, pathnameOf: string -> Option<string>, fetchOk: Student -> bool)
    requires DistinctMatrics(students)
    ensures |Entries(ResolveAll(students, pathnameOf, fetchOk))| == CountContributing(students, fetchOk)
  {
    if students != [] {
      var os := ResolveAll(students, pathnameOf, fetchOk);
      var tail := students[1..];
      assert os[1..] == ResolveAll(tail, pathnameOf, fetchOk);
      EntriesCount(tail, pathnameOf, fetchOk);
      var s0 := students[0];
      if Contributes(s0, fetchOk) {
        var n0 := EntryOf(s0, pathnameOf);
        if n0 in Entries(os[1..]) {
          EntriesExactly(tail, pathnameOf, fetchOk, n0);
          var s :| s in tail && Contributes(s, fetchOk) && n0 == EntryOf(s, pathnameOf);
          EntryNameInjective(s0.matricNumber, Extension(pathnameOf(s0.passport)),
                             s.matricNumber, Extension(pathnameOf(s.passport)));
          assert false;
        }
      }
    }
  }

  // ---------------------------------------------------------------------------
  // batchDownloadPassports: the reply

  /** The archive as far as the model sees it: its entry names, and whether `finalize`
      was called. */
  datatype Archive = Archive(entries: set<string>, finalized: bool)

  /** Either a JSON refusal, or the zip headers followed by the archive stream. */
  datatype BatchReply =
    | Refused(reply: MessageReply)
    | Streamed(headers: seq<Header>, outcomes: seq<ItemOutcome>, archive: Archive)

  const ZipSuffix: string := "_passports.zip"

  /** The name of the zip file for a department: the department, then the suffix. */
  function ZipName(department: string): (name: string)
    ensures |name| == |department| + |ZipSuffix|
    ensures name[..|department|] == department && name[|department|..] == ZipSuffix
  {
    department + ZipSuffix
  }

  const DispositionLead: string := "attachment; filename=\""

  /** The `Content-Disposition` value the controller sets: the zip name quoted after
      `attachment; filename=`. Node accepts it exactly when it accepts the department. */
  function ContentDisposition(department: string): (v: string)
    ensures |v| == |DispositionLead| + |ZipName(department)| + 1
    ensures v[..|DispositionLead|] == DispositionLead
    ensures v[|DispositionLead|..|v| - 1] == ZipName(department) && v[|v| - 1] == '"'
    ensures HeaderSafe(v) <==> HeaderSafe(department)
  {
    var v := DispositionLead + ZipName(department) + "\"";
    ThreeParts(DispositionLead, ZipName(department), "\"");
    HeaderSafeConcat(DispositionLead, ZipName(department));
    HeaderSafeConcat(DispositionLead + ZipName(department), "\"");
    HeaderSafeConcat(department, ZipSuffix);
    FixedPartsSafe();
    v
  }

  /** Characters Node accepts in a header value: tab, visible ASCII and space, and
      0x80-0xFF; `setHeader` throws on any other. */
  predicate HeaderSafe(v: string) {
    forall i :: 0 <= i < |v| ==> v[i] == '\t' || (' ' <= v[i] <= '~') || ('\U{0080}' <= v[i] <= '\U{00FF}')
  }

  /** The fixed parts of the header value are accepted by Node. */
  lemma FixedPartsSafe()
    ensures HeaderSafe(DispositionLead) && HeaderSafe(ZipSuffix) && HeaderSafe("\"")
  {
  }

  /** The three parts of a concatenation can be sliced back out. */
  lemma ThreeParts(a: string, b: string, c: string)
    ensures var v := a + b + c;
            && |v| == |a| + |b| + |c|
            && v[..|a|] == a && v[|a|..|a| + |b|] == b && v[|a| + |b|..] == c
  {
  }

  /** A concatenation is accepted exactly when both parts are. */
  lemma HeaderSafeConcat(a: string, b: string)
    ensures HeaderSafe(a + b) <==> HeaderSafe(a) && HeaderSafe(b)
  {
    assert forall k :: 0 <= k < |a| ==> (a + b)[k] == a[k];
    assert forall k :: 0 <= k < |b| ==> (a + b)[|a| + k] == b[k];
  }

  const InvalidHeaderMessage: string := "Invalid character in header content [\"Content-Disposition\"]"

  /** The batch download. `pathnameOf` is the URL parser's pathname (None when the URL
      does not parse) and `fetchOk` says whether fetching a record's image answers. */
  function BatchDownloadPassports(st: Store, department: Option<string>,
                                  pathnameOf: string -> Option<string>, fetchOk: Student -> bool): (r: BatchReply)
    ensures !Truthy(department) ==>
              r == Refused(MessageReply(400, false, "Department is required", None))
    ensures Truthy(department) && (forall s :: s in st.records ==> s.department != department.value) ==>
              r == Refused(MessageReply(404, false, "No students found for this department", None))
    ensures Truthy(department) && (exists s :: s in st.records && s.department == department.value)
            && !HeaderSafe(ContentDisposition(department.value)) ==>
              r == Refused(MessageReply(500, false, "Server error", Some(InvalidHeaderMessage)))
    ensures r.Refused? ==> !r.reply.success && r.reply.status in {400, 404, 500}
    ensures r.Streamed? <==>
              && Truthy(department)
              && (exists s :: s in st.records && s.department == department.value)
              && HeaderSafe(ContentDisposition(department.value))
    ensures r.Streamed? ==>
              && r.headers == [Header("Content-Type", "application/zip"),
                               Header("Content-Disposition", ContentDisposition(department.value))]
              && r.archive.finalized
              && r.outcomes == ResolveAll(Find(st.records, ByDepartment(department.value)), pathnameOf, fetchOk)
              && r.archive.entries == Entries(r.outcomes)
              && |r.archive.entries| <= |r.outcomes|
              && (forall n :: n in r.archive.entries <==>
                    exists s :: s in st.records && s.department == department.value
                                && Contributes(s, fetchOk) && n == EntryOf(s, pathnameOf))
  {
    if !Truthy(department) then
      Refused(MessageReply(400, false, "Department is required", None))
    else
      var d := department.value;
      var students := Find(st.records, ByDepartment(d));
      if |students| == 0 then
        Refused(MessageReply(404, false, "No students found for this department", None))
      else
        assert students[0] in students;
        if !HeaderSafe(ContentDisposition(d)) then
          Refused(MessageReply(500, false, "Server error", Some(InvalidHeaderMessage)))
        else
          var outcomes := ResolveAll(students, pathnameOf, fetchOk);
          var entries := Entries(outcomes);
          EntriesBound(students, pathnameOf, fetchOk);
          CountWithPassportBound(students);
          forall n ensures n in entries <==>
              exists s :: s in st.records && s.department == d && Contributes(s, fetchOk) && n == EntryOf(s, pathnameOf)
          {
            EntriesExactly(students, pathnameOf, fetchOk, n);
          }
          Streamed([Header("Content-Type", "application/zip"), Header("Content-Disposition", ContentDisposition(d))],
                   outcomes, Archive(entries, true))
  }

  lemma {:induction false} CountWithPassportBound(students: seq<Student>)
    ensures CountWithPassport(students) <= |students|
  {
    if students != [] {
      CountWithPassportBound(students[1..]);
    }
  }
}

=== FILE: admin_page.dfy ===
/** The admin page: the listing URL, the department options derived from a listing,
    what the page shows, and the batch-download button (its guard, the request it
    sends, and the name the downloaded file is saved under). `encodeURIComponent`
    is a parameter `encode`. */
module AdminPage {
  import opened Wrappers
  import opened Text
  import opened StudentModel

  const StudentsPath: string := "/api/admin/students"
  const BatchPath: string := "/api/admin/download-batch"
  const DepartmentQuery: string := "?department="

  // ---------------------------------------------------------------------------
  // Listing

  /** The URL `fetchStudents` requests: no query when no department is selected. */
  function ListingUrl(backendUrl: string, selectedDept: string, encode: string -> string): (url: string)
    ensures selectedDept == "" ==> url == backendUrl + StudentsPath
    ensures selectedDept != "" ==> url == backendUrl + StudentsPath + DepartmentQuery + encode(selectedDept)
  {
    backendUrl + StudentsPath + (if selectedDept != "" then DepartmentQuery + encode(selectedDept) else "")
  }

  /** `encode` maps distinct strings to distinct strings. */
  ghost predicate Injective(encode: string -> string) {
    forall a, b :: encode(a) == encode(b) ==> a == b
  }

  /** Distinct selections request distinct URLs, so two selections never request the
      same URL. */
  lemma ListingUrlInjective(backendUrl: string, d1: string, d2: string, encode: string -> string)
    requires Injective(encode)
    requires ListingUrl(backendUrl, d1, encode) == ListingUrl(backendUrl, d2, encode)
    ensures d1 == d2
  {
    var base := backendUrl + StudentsPath;
    var u := ListingUrl(backendUrl, d1, encode);
    if d1 != "" && d2 != "" {
      var k := |base + DepartmentQuery|;
      assert u == base + DepartmentQuery + encode(d1);
      assert u == base + DepartmentQuery + encode(d2);
      assert u[k..] == encode(d1);
      assert u[k..] == encode(d2);
    }
  }

  /** The departments of a listing, in listing order. */
  function DepartmentsOf(students: seq<Student>): (ds: seq<string>)
    ensures |ds| == |students|
    ensures forall i :: 0 <= i < |students| ==> ds[i] == students[i].department
  {
    seq(|students|, i requires 0 <= i < |students| => students[i].department)
  }

  /** The departments listed are exactly those of some record. */
  lemma DepartmentsOfMembers(students: seq<Student>)
    ensures forall d :: d in DepartmentsOf(students) <==> exists s :: s in students && s.department == d
  {
    var all := DepartmentsOf(students);
    forall d | d in all
      ensures exists s :: s in students && s.department == d
    {
      var i :| 0 <= i < |all| && all[i] == d;
      assert students[i] in students;
    }
  }

  /** The index of the first occurrence of `x` in `xs`. */
  function FirstIndex<T(==)>(xs: seq<T>, x: T): (i: nat)
    requires x in xs
    ensures i < |xs| && xs[i] == x
    ensures forall j :: 0 <= j < i ==> xs[j] != x
  {
    if xs[0] == x then 0 else 1 + FirstIndex(xs[1..], x)
  }

  /** An element that does not occur before index `k` first occurs at `k`. */
  lemma FirstIndexAt<T>(xs: seq<T>, k: nat)
    requires k < |xs| && xs[k] !in xs[..k]
    ensures FirstIndex(xs, xs[k]) == k
  {
  }

  /** Appending an element at its first occurrence `k` keeps a list ordered by first
      occurrence, with every first occurrence before `k + 1`. */
  lemma AppendFirstOccurrence(all: seq<string>, depts: seq<string>, k: nat)
    requires k < |all| && all[k] !in all[..k]
    requires forall i :: 0 <= i < |depts| ==> depts[i] in all && FirstIndex(all, depts[i]) < k
    requires forall i, j :: 0 <= i < j < |depts| ==> FirstIndex(all, depts[i]) < FirstIndex(all, depts[j])
    ensures var e := depts + [all[k]];
            forall i :: 0 <= i < |e| ==> e[i] in all && FirstIndex(all, e[i]) < k + 1
    ensures var e := depts + [all[k]];
            forall i, j :: 0 <= i < j < |e| ==> FirstIndex(all, e[i]) < FirstIndex(all, e[j])
  {
    FirstIndexAt(all, k);
  }

  /** Every value of `depts` occurs in `all`, and they come in the order of their first
      occurrences there. */
  predicate FirstOccurrenceOrder(depts: seq<string>, all: seq<string>) {
    forall i, j :: 0 <= i < j < |depts| ==>
      && depts[i] in all && depts[j] in all
      && FirstIndex(all, depts[i]) < FirstIndex(all, depts[j])
  }

  /** `Array.from(new Set(students.map(s => s.department)))`: every department of the
      listing exactly once, ordered by first occurrence. */
  method UniqueDepartments(students: seq<Student>) returns (depts: seq<string>)
    ensures NoDuplicates(depts)
    ensures forall d :: d in depts <==> exists s :: s in students && s.department == d
    ensures FirstOccurrenceOrder(depts, DepartmentsOf(students))
  {
    var all := DepartmentsOf(students);
    var seen: set<string> := {};
    depts := [];
    var k := 0;
    while k < |all|
      invariant 0 <= k <= |all|
      invariant forall d :: d in seen <==> d in depts
      invariant forall d :: d in depts <==> d in all[..k]
      invariant NoDuplicates(depts)
      invariant forall i :: 0 <= i < |depts| ==> depts[i] in all && FirstIndex(all, depts[i]) < k
      invariant forall i, j :: 0 <= i < j < |depts| ==> FirstIndex(all, depts[i]) < FirstIndex(all, depts[j])
    {
      var d := all[k];
      if d !in seen {
        AppendFirstOccurrence(all, depts, k);
        seen := seen + {d};
        depts := depts + [d];
      }
      assert all[..k + 1] == all[..k] + [all[k]];
      k := k + 1;
    }
    assert all[..k] == all;
    DepartmentsOfMembers(students);
  }

  // ---------------------------------------------------------------------------
  // Page state and rendering

  datatype PageState = PageState(
    students: seq<Student>,
    loading: bool,
    error: string,
    departments: seq<string>,
    selectedDept: string)

  /** The page as first mounted: loading, nothing selected. */
  const Initial: PageState := PageState([], true, "", [], "")

  /** The page mounts loading, with no rows, no error, no options and "All" selected;
      the batch button starts disabled. */
  lemma InitialShowsLoading()
    ensures Render(Initial) == LoadingView
    ensures BatchDisabled(Initial)
  {
  }

  const FetchFailedMessage: string := "Failed to fetch students"
  const NoUploadsMessage: string := "No uploads found."

  /** What the page body shows. */
  datatype View = LoadingView | ErrorView(text: string) | EmptyView(text: string) | TableView(rows: seq<Student>)

  /** The fixed priority: loading, then an error, then an empty list, then the table. */
  function Render(s: PageState): (v: View)
    ensures v.LoadingView? <==> s.loading
    ensures v.ErrorView? <==> !s.loading && s.error != ""
    ensures v.ErrorView? ==> v.text == s.error
    ensures v.EmptyView? <==> !s.loading && s.error == "" && |s.students| == 0
    ensures v.EmptyView? ==> v.text == NoUploadsMessage
    ensures v.TableView? ==> v.rows == s.students && |v.rows| > 0
  {
    if s.loading then LoadingView
    else if s.error != "" then ErrorView(s.error)
    else if |s.students| == 0 then EmptyView(NoUploadsMessage)
    else TableView(s.students)
  }

  /** The start of `fetchStudents`: loading on, error cleared. */
  function StartFetch(s: PageState): (t: PageState)
    ensures Render(t) == LoadingView
    ensures t.students == s.students && t.selectedDept == s.selectedDept
    ensures t.error == "" && t.departments == s.departments
  {
    s.(loading := true, error := "")
  }

  /** `fetchStudents`, run whenever the selection changes, given the listing the server
      returned (None when the request failed). A failed request keeps the previous rows
      and options. */
  method FetchStudents(s: PageState, listing: Option<seq<Student>>) returns (t: PageState)
    ensures !t.loading && t.selectedDept == s.selectedDept
    ensures listing.None? ==>
              && t.students == s.students && t.departments == s.departments
              && Render(t) == ErrorView(FetchFailedMessage)
    ensures listing.Some? ==>
              && t.students == listing.value
              && Render(t) == (if |listing.value| == 0 then EmptyView(NoUploadsMessage) else TableView(listing.value))
              && NoDuplicates(t.departments)
              && (forall d :: d in t.departments <==> exists r :: r in listing.value && r.department == d)
              && FirstOccurrenceOrder(t.departments, DepartmentsOf(listing.value))
  {
    var started := StartFetch(s);
    match listing
    case None =>
      t := started.(loading := false, error := FetchFailedMessage);
    case Some(rows) =>
      var depts := UniqueDepartments(rows);
      t := started.(students := rows, departments := depts, loading := false);
  }

  // ---------------------------------------------------------------------------
  // Batch download

  /** `disabled={!selectedDept || students.length === 0}`: the button is enabled only
      with a department selected and rows to show, so never over the empty-list view. */
  function BatchDisabled(s: PageState): (disabled: bool)
    ensures !disabled <==> s.selectedDept != "" && |s.students| > 0
    ensures !disabled ==> !Render(s).EmptyView?
  {
    s.selectedDept == "" || |s.students| == 0
  }

  /** The batch request URL: the department is always in the query, encoded. */
  function BatchUrl(backendUrl: string, selectedDept: string, encode: string -> string): (url: string)
    ensures var base := backendUrl + BatchPath + DepartmentQuery;
            |url| == |base| + |encode(selectedDept)| && url[..|base|] == base && url[|base|..] == encode(selectedDept)
  {
    backendUrl + BatchPath + DepartmentQuery + encode(selectedDept)
  }

  const FilenamePrefix: string := "filename=\""

  /** The first line terminator at or after `p`, or the end of `s`. */
  function LineEnd(s: string, p: nat): (e: nat)
    requires p <= |s|
    decreases |s| - p
    ensures p <= e <= |s|
    ensures e < |s| ==> IsLineTerminator(s[e])
    ensures forall k :: p <= k < e ==> !IsLineTerminator(s[k])
  {
    if p == |s| || IsLineTerminator(s[p]) then p else LineEnd(s, p + 1)
  }

  /** The last '"' in `s[lo..hi]`. */
  function LastQuote(s: string, lo: nat, hi: nat): (q: Option<nat>)
    requires hi <= |s|
    decreases hi
    ensures q.Some? ==> lo <= q.value < hi && s[q.value] == '"'
    ensures q.Some? ==> forall k :: q.value < k < hi ==> s[k] != '"'
    ensures q.None? ==> forall k :: lo <= k < hi ==> s[k] != '"'
  {
    if hi <= lo then None
    else if s[hi - 1] == '"' then Some(hi - 1)
    else LastQuote(s, lo, hi - 1)
  }

  /** The capture of `/filename="(.+)"/` when the match starts at `i`. The greedy `.+`
      runs to the first line terminator and backs off to the last '"' that still
      leaves it at least one character. */
  function CaptureAt(s: string, i: nat): (c: Option<string>)
    ensures c.Some? ==>
              && i + |FilenamePrefix| + |c.value| < |s|
              && s[i..i + |FilenamePrefix|] == FilenamePrefix
              && s[i + |FilenamePrefix|..i + |FilenamePrefix| + |c.value|] == c.value
              && s[i + |FilenamePrefix| + |c.value|] == '"'
              && |c.value| >= 1
              && (forall k :: 0 <= k < |c.value| ==> !IsLineTerminator(c.value[k]))
  {
    var p := i + |FilenamePrefix|;
    if p <= |s| && s[i..p] == FilenamePrefix then
      match LastQuote(s, p + 1, LineEnd(s, p))
      case None => None
      case Some(q) => Some(s[p..q])
    else None
  }

  /** How far a match starting at `i` reaches. With the prefix present, a match fails
      exactly when no '"' follows the capture's first character before the line ends;
      and the capture is greedy: no '"' lies after its closing quote before the line
      ends. */
  lemma CaptureAtExtent(s: string, i: nat)
    ensures var p := i + |FilenamePrefix|;
            p <= |s| && s[i..p] == FilenamePrefix ==>
              (CaptureAt(s, i).None? <==> forall k :: p < k < LineEnd(s, p) ==> s[k] != '"')
    ensures CaptureAt(s, i).Some? ==>
              var p := i + |FilenamePrefix|;
              forall k :: p + |CaptureAt(s, i).value| < k < LineEnd(s, p) ==> s[k] != '"'
  {
  }

  /** The regular-expression scan: the first index at or after `i` where a match starts. */
  function FilenameSearch(s: string, i: nat): (c: Option<string>)
    decreases |s| - i
    ensures c.Some? ==> |c.value| >= 1 && forall k :: 0 <= k < |c.value| ==> !IsLineTerminator(c.value[k])
  {
    if i >= |s| then None
    else match CaptureAt(s, i)
      case Some(c) => Some(c)
      case None => FilenameSearch(s, i + 1)
  }

  /** The scan finds nothing exactly when no position from `i` on starts a match. */
  lemma {:induction false} FilenameSearchNone(s: string, i: nat)
    ensures FilenameSearch(s, i).None? <==> forall k :: i <= k < |s| ==> CaptureAt(s, k).None?
    decreases |s| - i
  {
    if i < |s| {
      FilenameSearchNone(s, i + 1);
      if CaptureAt(s, i).None? {
        assert FilenameSearch(s, i) == FilenameSearch(s, i + 1);
      } else {
        assert FilenameSearch(s, i).Some?;
      }
    }
  }

  /** The scan returns the capture of the leftmost position where a match starts. */
  lemma {:induction false} FilenameSearchLeftmost(s: string, i: nat) returns (k: nat)
    requires FilenameSearch(s, i).Some?
    ensures i <= k < |s| && CaptureAt(s, k) == FilenameSearch(s, i)
    ensures forall j :: i <= j < k ==> CaptureAt(s, j).None?
    decreases |s| - i
  {
    if CaptureAt(s, i).None? {
      assert FilenameSearch(s, i) == FilenameSearch(s, i + 1);
      k := FilenameSearchLeftmost(s, i + 1);
    } else {
      k := i;
    }
  }

  /** `disposition.match(/filename="(.+)"/)?.[1]`: the capture of the leftmost match, or
      None exactly when no position matches. */
  function MatchFilename(disposition: string): (c: Option<string>)
    ensures c.None? <==> forall k :: 0 <= k < |disposition| ==> CaptureAt(disposition, k).None?
    ensures c.Some? ==> exists k :: 0 <= k < |disposition| && CaptureAt(disposition, k) == c
                                   && forall j :: 0 <= j < k ==> CaptureAt(disposition, j).None?
  {
    var c := FilenameSearch(disposition, 0);
    FilenameSearchNone(disposition, 0);
    assert c.Some? ==> exists k :: 0 <= k < |disposition| && CaptureAt(disposition, k) == c
                                 && forall j :: 0 <= j < k ==> CaptureAt(disposition, j).None? by {
      if c.Some? {
        var k := FilenameSearchLeftmost(disposition, 0);
      }
    }
    c
  }

  /** The name the downloaded file is saved under: `${selectedDept}_passports.zip`,
      unless a non-empty `Content-Disposition` header is visible and matches. */
  function SaveName(selectedDept: string, disposition: Option<string>): (name: string)
    ensures !Truthy(disposition) ==> name == selectedDept + "_passports.zip"
    ensures Truthy(disposition) && MatchFilename(disposition.value).Some? ==>
              name == MatchFilename(disposition.value).value
    ensures Truthy(disposition) && MatchFilename(disposition.value).None? ==>
              name == selectedDept + "_passports.zip"
  {
    var fallback := selectedDept + "_passports.zip";
    if Truthy(disposition) then MatchFilename(disposition.value).GetOr(fallback) else fallback
  }

  /** What the server's answer to the batch request looks like to the page: a failure
      (any non-2xx status or network error), or the blob with the header if visible. */
  datatype DownloadReply = DownloadFailed | Downloaded(disposition: Option<string>)

  /** What a click on the batch button does: an alert (with the request it sent, if
      any), or the file saved under a name. */
  datatype ClickResult = Alerted(text: string, sent: Option<string>) | Saved(url: string, filename: string)

  /** `handleBatchDownload` */
  function HandleBatchDownload(backendUrl: string, selectedDept: string, encode: string -> string,
                               reply: DownloadReply): (r: ClickResult)
    ensures selectedDept == "" ==> r == Alerted("Select a department first", None)
    ensures selectedDept != "" && reply.DownloadFailed? ==>
              r == Alerted("Batch download failed", Some(BatchUrl(backendUrl, selectedDept, encode)))
    ensures selectedDept != "" && reply.Downloaded? ==>
              r == Saved(BatchUrl(backendUrl, selectedDept, encode), SaveName(selectedDept, reply.disposition))
  {
    if selectedDept == "" then Alerted("Select a department first", None)
    else
      var url := BatchUrl(backendUrl, selectedDept, encode);
      match reply
      case DownloadFailed => Alerted("Batch download failed", Some(url))
      case Downloaded(disposition) => Saved(url, SaveName(selectedDept, disposition))
  }
}

=== FILE: flows.dfy ===
/** Properties that span the browser pages, the controllers and the store. */
module Flows {
  import opened Wrappers
  import opened Text
  import opened Http
  import opened StudentModel
  import AdminController
  import UploadController
  import AdminPage
  import HomePage

  // ---------------------------------------------------------------------------
  // The zip name: server header to saved file

  /** No scan position before the one the header's `filename="` starts at matches. */
  lemma {:induction false} SearchSkips(s: string, i: nat, j: nat)
    requires i <= j <= |s|
    requires forall k :: i <= k < j ==> AdminPage.CaptureAt(s, k).None?
    ensures AdminPage.FilenameSearch(s, i) == AdminPage.FilenameSearch(s, j)
    decreases j - i
  {
    if i < j {
      assert AdminPage.CaptureAt(s, i).None?;
      assert AdminPage.FilenameSearch(s, i) == AdminPage.FilenameSearch(s, i + 1);
      SearchSkips(s, i + 1, j);
    }
  }

  /** A match cannot start at a character other than 'f'. */
  lemma NoCaptureWithoutF(s: string, k: nat)
    requires k < |s| && s[k] != 'f'
    ensures AdminPage.CaptureAt(s, k).None?
  {
    var n := |AdminPage.FilenamePrefix|;
    if k + n <= |s| {
      assert s[k..k + n][0] == s[k];
    }
  }

  /** Right after `filename="` the greedy capture runs to the final quote when nothing
      after the prefix is a line terminator. */
  lemma CaptureToFinalQuote(pre: string, c: string)
    requires |c| >= 1
    requires forall k :: 0 <= k < |c| ==> !IsLineTerminator(c[k])
    ensures AdminPage.CaptureAt(pre + AdminPage.FilenamePrefix + c + "\"", |pre|) == Some(c)
  {
    var s := pre + AdminPage.FilenamePrefix + c + "\"";
    var p := |pre| + |AdminPage.FilenamePrefix|;
    assert s[|pre|..p] == AdminPage.FilenamePrefix;
    assert s[p..|s| - 1] == c;
    forall k | p <= k < |s|
      ensures !IsLineTerminator(s[k])
    {
      if k < |s| - 1 {
        assert s[k] == c[k - p];
      }
    }
    assert AdminPage.LineEnd(s, p) == |s|;
    assert AdminPage.LastQuote(s, p + 1, |s|) == Some(|s| - 1);
  }

  /** The zip name of a department without line terminators has none either. */
  lemma ZipNameNoLineTerminator(d: string)
    requires forall k :: 0 <= k < |d| ==> !IsLineTerminator(d[k])
    ensures var name := AdminController.ZipName(d);
            forall k :: 0 <= k < |name| ==> !IsLineTerminator(name[k])
  {
    var name := AdminController.ZipName(d);
    forall k | 0 <= k < |name|
      ensures !IsLineTerminator(name[k])
    {
      if k < |d| {
        assert name[k] == name[..|d|][k];
      } else {
        assert name[k] == name[|d|..][k - |d|];
      }
    }
  }

  /** The header value split where the page's match is meant to start. */
  lemma DispositionParts(d: string)
    ensures AdminController.ContentDisposition(d)
            == "attachment; " + AdminPage.FilenamePrefix + AdminController.ZipName(d) + "\""
  {
    var v := AdminController.ContentDisposition(d);
    assert AdminController.DispositionLead == "attachment; " + AdminPage.FilenamePrefix;
    assert v == v[..|AdminController.DispositionLead|] + v[|AdminController.DispositionLead|..|v| - 1] + [v[|v| - 1]];
  }

  /** No match starts inside a leading part that holds no 'f'. */
  lemma NoMatchInLead(h: string, lead: string)
    requires |lead| <= |h| && h[..|lead|] == lead && 'f' !in lead
    ensures forall k :: 0 <= k < |lead| ==> AdminPage.CaptureAt(h, k).None?
  {
    forall k | 0 <= k < |lead|
      ensures AdminPage.CaptureAt(h, k).None?
    {
      assert h[k] == lead[k];
      NoCaptureWithoutF(h, k);
    }
  }

  /** The admin page reads back, from the header the controller sets, exactly the zip
      name the controller chose, for any department without line terminators. */
  lemma DispositionRoundTrip(d: string)
    requires forall k :: 0 <= k < |d| ==> !IsLineTerminator(d[k])
    ensures AdminPage.MatchFilename(AdminController.ContentDisposition(d)) == Some(AdminController.ZipName(d))
  {
    var name := AdminController.ZipName(d);
    var lead := "attachment; ";
    var h := lead + AdminPage.FilenamePrefix + name + "\"";
    DispositionParts(d);
    ZipNameNoLineTerminator(d);
    CaptureToFinalQuote(lead, name);
    // "attachment; " holds no 'f', so no match can start inside it
    assert h[..|lead|] == lead;
    NoMatchInLead(h, lead);
    SearchSkips(h, 0, |lead|);
  }

  /** A department whose `Content-Disposition` value Node accepts holds no line
      terminator. */
  lemma SafeDispositionHasNoLineTerminator(d: string)
    requires AdminController.HeaderSafe(AdminController.ContentDisposition(d))
    ensures forall k :: 0 <= k < |d| ==> !IsLineTerminator(d[k])
  {
    var h := AdminController.ContentDisposition(d);
    var n := |"attachment; filename=\""|;
    forall k | 0 <= k < |d|
      ensures !IsLineTerminator(d[k])
    {
      assert h[n + k] == d[k];
    }
  }

  /** The controller streams an archive exactly when the department is non-empty, has a
      record and Node accepts its header value. Such a download is saved by the admin
      page under `<department>_passports.zip`, whether or not the browser lets the page
      see the `Content-Disposition` header. */
  lemma BatchDownloadSavedUnderZipName(st: Store, d: string, pathnameOf: string -> Option<string>,
                                       fetchOk: Student -> bool, backendUrl: string,
                                       encode: string -> string, headerVisible: bool)
    requires d != "" && exists s :: s in st.records && s.department == d
    requires AdminController.HeaderSafe(AdminController.ContentDisposition(d))
    ensures var r := AdminController.BatchDownloadPassports(st, Some(d), pathnameOf, fetchOk);
            var seen := if headerVisible then Some(r.headers[1].value) else None;
            AdminPage.HandleBatchDownload(backendUrl, d, encode, AdminPage.Downloaded(seen))
              == AdminPage.Saved(AdminPage.BatchUrl(backendUrl, d, encode), AdminController.ZipName(d))
  {
    var r := AdminController.BatchDownloadPassports(st, Some(d), pathnameOf, fetchOk);
    assert r.Streamed?;
    assert r.headers[1].value == AdminController.ContentDisposition(d);
    SafeDispositionHasNoLineTerminator(d);
    DispositionRoundTrip(d);
  }

  /** When the page shows the server's listing for the selected department and the
      batch button is enabled, the batch request finds records: it is neither the 400
      nor the 404 refusal, and it streams unless Node refuses the header. */
  lemma EnabledBatchFindsStudents(s: AdminPage.PageState, st: Store,
                                  pathnameOf: string -> Option<string>, fetchOk: Student -> bool)
    requires s.students == AdminController.GetAllStudents(st, Some(s.selectedDept)).students
    requires !AdminPage.BatchDisabled(s)
    ensures var r := AdminController.BatchDownloadPassports(st, Some(s.selectedDept), pathnameOf, fetchOk);
            && (r.Streamed? <==> AdminController.HeaderSafe(AdminController.ContentDisposition(s.selectedDept)))
            && (r.Refused? ==> r.reply.status == 500)
  {
    assert s.students[0] in s.students;
  }

  // ---------------------------------------------------------------------------
  // Upload form to store to listing

  /** The multipart request the upload middleware makes of a form submission. */
  function RequestOf(sub: HomePage.Submission): UploadController.UploadRequest {
    UploadController.UploadRequest(Some(sub.passport), Some(sub.department), Some(sub.matricNumber))
  }

  /** Everything the form sends passes the controller's checks, provided a department
      is selected: the form's blank check is stricter than the controller's. */
  lemma FormRequestsPassValidation(f: HomePage.Form, firstDepartment: string, answer: HomePage.ServerAnswer)
    requires f.department != ""
    ensures var sent := HomePage.HandleSubmit(f, firstDepartment, answer).sent;
            sent.Some? ==> UploadController.Validate(RequestOf(sent.value)).None?
  {
    var sent := HomePage.HandleSubmit(f, firstDepartment, answer).sent;
    if sent.Some? {
      assert sent.value.matricNumber == f.matricNumber;
      assert !Blank(f.matricNumber);
    }
  }

  /** A record created from a form submission is listed under its department, with the
      matric number exactly as typed (untrimmed) and the uploaded image's URL. */
  lemma UploadedRecordIsListed(sub: HomePage.Submission, st: Store, now: nat, saveTime: int,
                               upload: Result<UploadController.UploadResult, ErrorInfo>)
    requires UploadController.CreateStudent(st, RequestOf(sub), now, saveTime, upload).reply.status == 201
    ensures var st' := UploadController.CreateStudent(st, RequestOf(sub), now, saveTime, upload).store;
            exists s :: s in AdminController.GetAllStudents(st', Some(sub.department)).students
                        && s.department == sub.department
                        && s.matricNumber == sub.matricNumber
                        && s.passport == upload.value.secureUrl
  {
    var st' := UploadController.CreateStudent(st, RequestOf(sub), now, saveTime, upload).store;
    var s := st'.records[|st.records|];
    assert s in st'.records;
    assert s in AdminController.GetAllStudents(st', Some(sub.department)).students;
  }

  // ---------------------------------------------------------------------------
  // Batch download over a valid store

  /** `find` keeps matric numbers pairwise distinct. */
  lemma {:induction false} FindKeepsDistinctMatrics(records: seq<Student>, q: Query)
    requires DistinctMatrics(records)
    ensures DistinctMatrics(Find(records, q))
  {
    if records != [] {
      var head, rest := records[0], records[1..];
      var tail := Find(rest, q);
      FindKeepsDistinctMatrics(rest, q);
      if !Matches(q, head) {
        assert Find(records, q) == tail;
      } else {
        var r := [head] + tail;
        assert r == Find(records, q);
        forall j | 0 <= j < |tail|
          ensures tail[j].matricNumber != head.matricNumber
        {
          assert tail[j] in rest;
          var k :| 0 <= k < |rest| && rest[k] == tail[j];
          assert records[k + 1] == tail[j];
        }
        forall i, j | 0 <= i < j < |r|
          ensures r[i].matricNumber != r[j].matricNumber
        {
          if i == 0 {
            assert r[i] == head && r[j] == tail[j - 1];
          } else {
            assert r[i] == tail[i - 1] && r[j] == tail[j - 1];
          }
        }
      }
    }
  }

  /** The records that contribute an archive entry, as a set. */
  function ContributingSet(students: seq<Student>, fetchOk: Student -> bool): (r: set<Student>)
    ensures forall s :: s in r <==> s in students && AdminController.Contributes(s, fetchOk)
  {
    if students == [] then {}
    else
      assert students == [students[0]] + students[1..];
      (if AdminController.Contributes(students[0], fetchOk) then {students[0]} else {})
        + ContributingSet(students[1..], fetchOk)
  }

  /** Over records that all carry a passport, the department's contributing records
      are those of the department whose fetch answers. */
  lemma ContributingOfDepartment(records: seq<Student>, d: string, fetchOk: Student -> bool)
    requires forall s :: s in records ==> HasRequiredFields(s)
    ensures ContributingSet(Find(records, ByDepartment(d)), fetchOk)
            == (set s | s in records && s.department == d && fetchOk(s))
  {
  }

  /** In a valid store every record has a passport and a distinct matric number, so a
      streamed archive (the conditions of the two requires) has exactly one entry per
      record of the department whose fetch answers. */
  lemma BatchEntryCount(st: Store, d: string, pathnameOf: string -> Option<string>, fetchOk: Student -> bool)
    requires Valid(st)
    requires d != "" && exists s :: s in st.records && s.department == d
    requires AdminController.HeaderSafe(AdminController.ContentDisposition(d))
    ensures var r := AdminController.BatchDownloadPassports(st, Some(d), pathnameOf, fetchOk);
            |r.archive.entries| == |set s | s in st.records && s.department == d && fetchOk(s)|
  {
    var students := Find(st.records, ByDepartment(d));
    FindKeepsDistinctMatrics(st.records, ByDepartment(d));
    AdminController.EntriesCount(students, pathnameOf, fetchOk);
    CountContributingIsSetSize(students, fetchOk);
    ContributingOfDepartment(st.records, d, fetchOk);
  }

  /** Dropping the first record keeps matric numbers distinct. */
  lemma DistinctMatricsTail(students: seq<Student>)
    requires students != [] && DistinctMatrics(students)
    ensures DistinctMatrics(students[1..])
  {
    var tail := students[1..];
    forall i, j | 0 <= i < j < |tail|
      ensures tail[i].matricNumber != tail[j].matricNumber
    {
      assert tail[i] == students[i + 1] && tail[j] == students[j + 1];
    }
  }

  /** With distinct matric numbers, the first record does not recur. */
  lemma HeadNotInTail(students: seq<Student>)
    requires students != [] && DistinctMatrics(students)
    ensures students[0] !in students[1..]
  {
    forall k | 0 <= k < |students| - 1
      ensures students[1..][k] != students[0]
    {
      assert students[k + 1] == students[1..][k];
    }
  }

  /** With distinct matric numbers (hence distinct records), counting the contributing
      records gives the size of the set of them. */
  lemma {:induction false} CountContributingIsSetSize(students: seq<Student>, fetchOk: Student -> bool)
    requires DistinctMatrics(students)
    ensures AdminController.CountContributing(students, fetchOk) == |ContributingSet(students, fetchOk)|
  {
    if students != [] {
      DistinctMatricsTail(students);
      CountContributingIsSetSize(students[1..], fetchOk);
      HeadNotInTail(students);
    }
  }
}

=== FILE: home_page.dfy ===
/** The student upload form: `handleSubmit` as a function from the form state and the
    server's answer to the request it sends and the next form state. */
module HomePage {
  import opened Wrappers
  import opened Text
  import opened Http

  /** The form's state hooks. `error` and `success` are the two message lines ("" when
      not shown). */
  datatype Form = Form(
    department: string,
    matricNumber: string,
    passport: Option<FilePart>,
    loading: bool,
    error: string,
    success: string)

  /** The multipart fields the form posts. */
  datatype Submission = Submission(department: string, matricNumber: string, passport: FilePart)

  /** How the POST ends: a 2xx response with its JSON body, or a thrown error carrying
      the `message` of the error response's body, if there was one. */
  datatype ServerAnswer = Answered(success: bool, message: Option<string>) | Threw(message: Option<string>)

  /** The request sent (None when validation stopped the submit) and the next state. */
  datatype SubmitResult = SubmitResult(sent: Option<Submission>, form: Form)

  const EnterMatric: string := "Please enter matric number"
  const UploadPassport: string := "Please upload passport"
  const UploadFailed: string := "Upload failed"
  const GenericError: string := "An error occurred. Please try again."

  /** The error line for an answer that is not a success: the server's message when it
      sent a non-empty one, otherwise a fallback that depends on how the request ended.
      It is never empty, so the error line always shows. */
  function FailureMessage(answer: ServerAnswer): (text: string)
    ensures text != ""
    ensures Truthy(answer.message) ==> text == answer.message.value
    ensures !Truthy(answer.message) ==> text == (if answer.Answered? then UploadFailed else GenericError)
  {
    match answer
    case Answered(_, message) => OrElse(message, UploadFailed)
    case Threw(message) => OrElse(message, GenericError)
  }

  /** `handleSubmit`. `firstDepartment` is the first entry of the department list the
      form resets to; `answer` is what the server would answer. */
  function HandleSubmit(f: Form, firstDepartment: string, answer: ServerAnswer): (r: SubmitResult)
    // both message lines are cleared first, so at most one is shown afterwards
    ensures r.form.error == "" || r.form.success == ""
    // a blank matric number stops the submit, and takes precedence over a missing passport
    ensures Blank(f.matricNumber) ==>
              r == SubmitResult(None, f.(error := EnterMatric, success := ""))
    ensures !Blank(f.matricNumber) && f.passport.None? ==>
              r == SubmitResult(None, f.(error := UploadPassport, success := ""))
    // otherwise the fields are sent as entered, without trimming
    ensures r.sent.Some? <==> !Blank(f.matricNumber) && f.passport.Some?
    ensures r.sent.Some? ==> r.sent.value == Submission(f.department, f.matricNumber, f.passport.value)
    ensures r.sent.Some? ==> !r.form.loading
    // success shows the server's message and resets the form
    ensures r.sent.Some? && answer.Answered? && answer.success ==>
              r.form == Form(firstDepartment, "", None, false, "", OrElse(answer.message, ""))
    // failure keeps the entered fields and shows the server's message or a fallback
    ensures r.sent.Some? && !(answer.Answered? && answer.success) ==>
              && r.form == f.(loading := false, error := FailureMessage(answer), success := "")
              && r.form.error != ""
  {
    TrimEmptyIffBlank(f.matricNumber);
    var cleared := f.(error := "", success := "");
    if Trim(f.matricNumber) == "" then
      SubmitResult(None, cleared.(error := EnterMatric))
    else if f.passport.None? then
      SubmitResult(None, cleared.(error := UploadPassport))
    else
      var sent := Submission(f.department, f.matricNumber, f.passport.value);
      var next :=
        if answer.Answered? && answer.success then
          Form(firstDepartment, "", None, false, "", OrElse(answer.message, ""))
        else
          cleared.(loading := false, error := FailureMessage(answer));
      SubmitResult(Some(sent), next)
  }
}

=== FILE: http.dfy ===
/** The shapes that travel between the browser pages and the Express controllers. */
module Http {
  import opened Wrappers

  /** A JSON reply of the form `{ success, message, error? }` with its status code. */
  datatype MessageReply = MessageReply(status: nat, success: bool, message: string, error: Option<string>)

  /** One response header. */
  datatype Header = Header(name: string, value: string)

  /** An uploaded image file as the multipart parser hands it over; only its presence
      matters to the logic modelled here. */
  datatype FilePart = FilePart(name: string, bytes: seq<bv8>)

  /** What an exception carries: the optional numeric `code` and the `message`. */
  datatype ErrorInfo = ErrorInfo(code: Option<int>, message: string)
}

=== FILE: student.dfy ===
/** The `Student` collection: the Mongoose schema's required fields and unique
    `matricNumber` as an invariant of an abstract store, with insertion (`save`),
    filtered lookup (`find`) and the newest-first ordering (`sort({ createdAt: -1 })`). */
module StudentModel {
  import opened Wrappers

  type RecordId = nat

  /** A stored document. `createdAt` is a clock reading in milliseconds. */
  datatype Student = Student(
    id: RecordId,
    department: string,
    matricNumber: string,
    passport: string,
    createdAt: int)

  /** A document about to be saved. A required String path counts as missing when it
      is absent or empty, so "" stands for both here; `createdAt` may be left unset. */
  datatype Draft = Draft(department: string, matricNumber: string, passport: string, createdAt: Option<int>)

  /** Why a save is refused: schema validation (naming the failing paths, in schema
      order) or a collision on the unique index. */
  datatype DbError = ValidationFailed(paths: seq<string>) | DuplicateKey(matricNumber: string)

  /** The MongoDB server code of a duplicate-key error. */
  const DuplicateKeyCode: int := 11000

  /** The three String paths declared `required: true`. */
  predicate HasRequiredFields(s: Student) {
    s.department != "" && s.matricNumber != "" && s.passport != ""
  }

  /** The required paths a draft leaves missing, in schema order. */
  function MissingPaths(d: Draft): (paths: seq<string>)
    ensures paths == [] <==> d.department != "" && d.matricNumber != "" && d.passport != ""
    ensures "passport" in paths <==> d.passport == ""
    // exactly the unset required paths are named
    ensures forall x :: x in paths <==>
              || (x == "department" && d.department == "")
              || (x == "matricNumber" && d.matricNumber == "")
              || (x == "passport" && d.passport == "")
  {
    (if d.department == "" then ["department"] else [])
    + (if d.matricNumber == "" then ["matricNumber"] else [])
    + (if d.passport == "" then ["passport"] else [])
  }

  /** The collection, in insertion order, and the next identifier to hand out. */
  datatype Store = Store(records: seq<Student>, nextId: RecordId)

  const EmptyStore: Store := Store([], 0)

  /** A fresh collection is valid, so every store reached by saves is. */
  lemma EmptyStoreValid()
    ensures Valid(EmptyStore)
  {
  }

  /** No two documents share a matric number. */
  predicate DistinctMatrics(xs: seq<Student>) {
    forall i, j :: 0 <= i < j < |xs| ==> xs[i].matricNumber != xs[j].matricNumber
  }

  /** Every stored document has its required fields and an identifier below `nextId`;
      no two documents share a matric number or an identifier. */
  predicate Valid(st: Store) {
    && (forall s :: s in st.records ==> HasRequiredFields(s) && s.id < st.nextId)
    && DistinctMatrics(st.records)
    && (forall i, j :: 0 <= i < j < |st.records| ==> st.records[i].id != st.records[j].id)
  }

  predicate MatricTaken(st: Store, m: string) {
    exists i :: 0 <= i < |st.records| && st.records[i].matricNumber == m
  }

  /** `new Student(d).save()`: validation runs first, then the unique index is consulted;
      an unset `createdAt` takes the clock reading `now`. */
  function Insert(st: Store, d: Draft, now: int): (r: Result<(Store, Student), DbError>)
    ensures r.Failure? <==> MissingPaths(d) != [] || MatricTaken(st, d.matricNumber)
    ensures MissingPaths(d) != [] ==> r == Failure(ValidationFailed(MissingPaths(d)))
    ensures MissingPaths(d) == [] && MatricTaken(st, d.matricNumber) ==>
              r == Failure(DuplicateKey(d.matricNumber))
    ensures r.Success? ==>
              && r.value.0.records == st.records + [r.value.1]
              && r.value.1.department == d.department
              && r.value.1.matricNumber == d.matricNumber
              && r.value.1.passport == d.passport
              && r.value.1.createdAt == d.createdAt.GetOr(now)
    ensures Valid(st) && r.Success? ==>
              && Valid(r.value.0)
              && (forall i :: 0 <= i < |st.records| ==> st.records[i].id != r.value.1.id)
  {
    if MissingPaths(d) != [] then Failure(ValidationFailed(MissingPaths(d)))
    else if MatricTaken(st, d.matricNumber) then Failure(DuplicateKey(d.matricNumber))
    else
      var s := Student(st.nextId, d.department, d.matricNumber, d.passport, d.createdAt.GetOr(now));
      assert Valid(st) ==> forall i :: 0 <= i < |st.records| ==> st.records[i].id != s.id;
      Success((Store(st.records + [s], st.nextId + 1), s))
  }

  /** A `find` filter: `{}` or `{ department }`. */
  datatype Query = All | ByDepartment(department: string)

  predicate Matches(q: Query, s: Student) {
    q.All? || s.department == q.department
  }

  /** `find(q)`: the matching documents, in store order. */
  function Find(records: seq<Student>, q: Query): (r: seq<Student>)
    ensures forall s :: s in r <==> s in records && Matches(q, s)
    ensures |r| <= |records|
  {
    if records == [] then []
    else (if Matches(q, records[0]) then [records[0]] else []) + Find(records[1..], q)
  }

  /** `find` returns each matching document as often as it is stored, and no other. */
  lemma {:induction false} FindCounts(records: seq<Student>, q: Query, s: Student)
    ensures multiset(Find(records, q))[s] == if Matches(q, s) then multiset(records)[s] else 0
  {
    if records != [] {
      assert records == [records[0]] + records[1..];
      FindCounts(records[1..], q, s);
    }
  }

  /** Ordered by `createdAt` descending. */
  predicate NewestFirst(xs: seq<Student>) {
    forall i, j :: 0 <= i < j < |xs| ==> xs[i].createdAt >= xs[j].createdAt
  }

  /** Places `x` before the first element no newer than it. */
  function InsertNewestFirst(x: Student, xs: seq<Student>): (r: seq<Student>)
    ensures multiset(r) == multiset(xs) + multiset{x}
    ensures |r| == |xs| + 1
    ensures r[0] == x || (xs != [] && r[0] == xs[0])
  {
    if xs == [] || x.createdAt >= xs[0].createdAt then [x] + xs
    else
      var rest := InsertNewestFirst(x, xs[1..]);
      assert xs == [xs[0]] + xs[1..];
      [xs[0]] + rest
  }

  /** Insertion keeps a sequence newest first. */
  lemma {:induction false} InsertKeepsNewestFirst(x: Student, xs: seq<Student>)
    requires NewestFirst(xs)
    ensures NewestFirst(InsertNewestFirst(x, xs))
  {
    if xs != [] && x.createdAt < xs[0].createdAt {
      var rest := InsertNewestFirst(x, xs[1..]);
      InsertKeepsNewestFirst(x, xs[1..]);
      var r := [xs[0]] + rest;
      assert r == InsertNewestFirst(x, xs);
      // the head of `rest` is `x` or `xs[1]`, both no newer than `xs[0]`
      assert r[0].createdAt >= rest[0].createdAt;
      forall i, j | 0 <= i < j < |r|
        ensures r[i].createdAt >= r[j].createdAt
      {
        if i == 0 {
          assert rest[0].createdAt >= rest[j - 1].createdAt || j == 1;
        } else {
          assert r[i] == rest[i - 1] && r[j] == rest[j - 1];
        }
      }
    }
  }

  /** `sort({ createdAt: -1 })`. Documents with equal timestamps may come in any order
      in MongoDB; this definition fixes one such order. */
  function SortNewestFirst(xs: seq<Student>): (r: seq<Student>)
    ensures NewestFirst(r)
    ensures multiset(r) == multiset(xs)
  {
    if xs == [] then []
    else
      assert xs == [xs[0]] + xs[1..];
      var sorted := SortNewestFirst(xs[1..]);
      InsertKeepsNewestFirst(xs[0], sorted);
      InsertNewestFirst(xs[0], sorted)
  }

  /** `Student.find(q).sort({ createdAt: -1 })`: exactly the matching documents, newest first. */
  function List(st: Store, q: Query): (r: seq<Student>)
    ensures NewestFirst(r)
    ensures forall s :: multiset(r)[s] == if Matches(q, s) then multiset(st.records)[s] else 0
    ensures forall s :: s in r <==> s in st.records && Matches(q, s)
  {
    var r := SortNewestFirst(Find(st.records, q));
    forall s ensures multiset(r)[s] == if Matches(q, s) then multiset(st.records)[s] else 0 {
      FindCounts(st.records, q, s);
    }
    assert forall s :: s in r <==> s in multiset(r);
    r
  }

  /** In a newest-first sequence whose one element is stamped later than all the
      others, that element comes first. */
  lemma {:induction false} LatestHeads(r: seq<Student>, s: Student)
    requires NewestFirst(r) && s in r
    requires forall x :: x in r && x != s ==> x.createdAt < s.createdAt
    ensures r[0] == s
  {
    var k :| 0 <= k < |r| && r[k] == s;
    assert r[0].createdAt >= r[k].createdAt;
  }

  /** A matching document stamped later than every other document heads the listing. */
  lemma LatestListedFirst(st: Store, q: Query, s: Student)
    requires s in st.records && Matches(q, s)
    requires forall x :: x in st.records && x != s ==> x.createdAt < s.createdAt
    ensures |List(st, q)| > 0 && List(st, q)[0] == s
  {
    LatestHeads(List(st, q), s);
  }

  /** A document saved when the clock has passed every stored timestamp heads every
      listing it belongs to. */
  lemma FreshRecordListedFirst(st: Store, d: Draft, now: int, q: Query, st': Store, s: Student)
    requires d.createdAt.None?
    requires forall x :: x in st.records ==> x.createdAt < now
    requires Insert(st, d, now) == Success((st', s))
    requires Matches(q, s)
    ensures |List(st', q)| > 0 && List(st', q)[0] == s
  {
    assert st'.records == st.records + [s];
    assert s.createdAt == now;
    forall x | x in st'.records && x != s
      ensures x.createdAt < now
    {
      assert x in st.records;
    }
    LatestListedFirst(st', q, s);
  }
}

=== FILE: text.dfy ===
/** Character classes and string operations of ECMAScript that the application code
    relies on: truthiness of optional strings, `String.prototype.trim`, and the
    decimal rendering of an integer inside a template literal. */
module Text {
  import opened Wrappers

  /** JavaScript truthiness of an optional string: present and not empty. */
  predicate Truthy(s: Option<string>) {
    s.Some? && s.value != ""
  }

  /** `a || b` for an optional string: `a` when truthy, otherwise `b`. */
  function OrElse(a: Option<string>, b: string): (r: string)
    ensures Truthy(a) ==> r == a.value
    ensures !Truthy(a) ==> r == b
  {
    if Truthy(a) then a.value else b
  }

  /** The LineTerminator code points; the regular-expression `.` matches none of them. */
  predicate IsLineTerminator(c: char) {
    c == '\n' || c == '\r' || c == '\U{2028}' || c == '\U{2029}'
  }

  /** WhiteSpace and LineTerminator code points, the set `trim` removes
      (the WhiteSpace set includes every Zs space separator). */
  predicate IsJsWhitespace(c: char) {
    || c == '\t' || c == '\U{000B}' || c == '\U{000C}' || c == ' '
    || c == '\U{00A0}' || c == '\U{FEFF}' || c == '\U{1680}'
    || ('\U{2000}' <= c <= '\U{200A}')
    || c == '\U{202F}' || c == '\U{205F}' || c == '\U{3000}'
    || IsLineTerminator(c)
  }

  /** The character class `[a-zA-Z0-9]`. */
  predicate IsAsciiAlnum(c: char) {
    ('a' <= c <= 'z') || ('A' <= c <= 'Z') || ('0' <= c <= '9')
  }

  predicate IsDigit(c: char) {
    '0' <= c <= '9'
  }

  /** Every character of `s` is white space (vacuously true of ""). */
  predicate Blank(s: string) {
    forall i :: 0 <= i < |s| ==> IsJsWhitespace(s[i])
  }

  predicate AllDigits(s: string) {
    forall i :: 0 <= i < |s| ==> IsDigit(s[i])
  }

  /** No element occurs twice. */
  predicate NoDuplicates<T(==)>(xs: seq<T>) {
    forall i, j :: 0 <= i < j < |xs| ==> xs[i] != xs[j]
  }

  /** The first index at or after `i` that does not hold white space. */
  function SkipBlankFrom(s: string, i: nat): (j: nat)
    requires i <= |s|
    decreases |s| - i
    ensures i <= j <= |s|
    ensures forall k :: i <= k < j ==> IsJsWhitespace(s[k])
    ensures j == |s| || !IsJsWhitespace(s[j])
  {
    if i == |s| || !IsJsWhitespace(s[i]) then i else SkipBlankFrom(s, i + 1)
  }

  /** The index just past the last character before `j` that does not hold white space. */
  function SkipBlankBefore(s: string, j: nat): (i: nat)
    requires j <= |s|
    ensures i <= j
    ensures forall k :: i <= k < j ==> IsJsWhitespace(s[k])
    ensures i == 0 || !IsJsWhitespace(s[i - 1])
  {
    if j == 0 || !IsJsWhitespace(s[j - 1]) then j else SkipBlankBefore(s, j - 1)
  }

  /** `s` with its leading white space removed. */
  function TrimStart(s: string): (r: string)
    ensures |r| <= |s| && r == s[|s| - |r|..]
    ensures Blank(s[..|s| - |r|])
    ensures r == [] || !IsJsWhitespace(r[0])
  {
    s[SkipBlankFrom(s, 0)..]
  }

  /** `s` with its trailing white space removed. */
  function TrimEnd(s: string): (r: string)
    ensures |r| <= |s| && r == s[..|r|]
    ensures Blank(s[|r|..])
    ensures r == [] || !IsJsWhitespace(r[|r| - 1])
  {
    s[..SkipBlankBefore(s, |s|)]
  }

  /** `String.prototype.trim`: the part of `s` between its leading and its trailing
      white space, which neither starts nor ends with white space. */
  function Trim(s: string): (r: string)
    ensures exists i :: 0 <= i <= |s| - |r| && s[i..i + |r|] == r && Blank(s[..i]) && Blank(s[i + |r|..])
    ensures r == [] || (!IsJsWhitespace(r[0]) && !IsJsWhitespace(r[|r| - 1]))
  {
    var t := TrimStart(s);
    var r := TrimEnd(t);
    var i := |s| - |t|;
    assert s[i..i + |r|] == r;
    assert s[i + |r|..] == t[|r|..];
    r
  }

  /** `!s.trim()` holds exactly when `s` consists of white space only. */
  lemma TrimEmptyIffBlank(s: string)
    ensures Trim(s) == "" <==> Blank(s)
  {
    var t := TrimStart(s);
    if Trim(s) == "" {
      // TrimEnd left nothing, so `t` is blank; it cannot start with white space, so it is empty
      assert Blank(t[0..]);
      assert t == [];
      assert s[..|s|] == s;
    } else {
      assert !IsJsWhitespace(t[0]);
      assert t[0] == s[|s| - |t|];
    }
  }

  /** The character for a decimal digit. */
  function DigitChar(d: nat): (c: char)
    requires d < 10
    ensures IsDigit(c)
  {
    "0123456789"[d]
  }

  /** The numeric value of a digit character. */
  function DigitValue(c: char): nat
    requires IsDigit(c)
  {
    (c as int - '0' as int) as nat
  }

  /** The decimal rendering JavaScript produces for a non-negative integer below 10^21,
      as in `${n}`: digits only, no leading zero except for 0 itself. */
  function Decimal(n: nat): (r: string)
    ensures |r| >= 1 && AllDigits(r)
    ensures r[0] == '0' ==> n == 0
  {
    if n < 10 then [DigitChar(n)] else Decimal(n / 10) + [DigitChar(n % 10)]
  }

  /** The number a string of digits denotes. */
  function DecimalValue(s: string): nat
    requires AllDigits(s)
  {
    if s == [] then 0 else 10 * DecimalValue(s[..|s| - 1]) + DigitValue(s[|s| - 1])
  }

  /** Rendering a number and reading it back gives the same number, so distinct
      clock readings give distinct renderings. */
  lemma {:induction false} DecimalRoundTrip(n: nat)
    ensures DecimalValue(Decimal(n)) == n
  {
    if n >= 10 {
      var r := Decimal(n);
      assert r[..|r| - 1] == Decimal(n / 10);
      DecimalRoundTrip(n / 10);
    }
  }
}

=== FILE: upload_controller.dfy ===
/** `createStudent`: the ordered request checks, the upload options, the record built
    from the request and the upload result, and the mapping of every outcome to a
    status and message. The image host is an input: `upload` is what it would answer. */
module UploadController {
  import opened Wrappers
  import opened Text
  import opened Http
  import opened StudentModel

  /** The multipart request after the upload middleware: the `passport` file part and
      the text fields of the body (None when a field was not sent). */
  datatype UploadRequest = UploadRequest(file: Option<FilePart>, department: Option<string>, matricNumber: Option<string>)

  /** The options handed to the image host's `upload_stream`. */
  datatype UploadParams = UploadParams(folder: string, publicId: string, resourceType: string)

  /** The image host's answer: the stored image's `secure_url` ("" when it has none). */
  datatype UploadResult = UploadResult(secureUrl: string)

  /** The reply, the store after the request, and the upload the request started, if any. */
  datatype CreateOutcome = CreateOutcome(reply: MessageReply, store: Store, uploaded: Option<UploadParams>)

  const PassportRequired: string := "Passport is required"
  const FieldsRequired: string := "All fields are required"
  const MatricExists: string := "Matric number already exists"
  const Uploaded: string := "Student uploaded successfully"

  /** The request checks, in order: the file first, then both text fields. */
  function Validate(req: UploadRequest): (err: Option<string>)
    ensures req.file.None? ==> err == Some(PassportRequired)
    ensures req.file.Some? ==>
              (err.Some? <==> !Truthy(req.department) || !Truthy(req.matricNumber))
    ensures req.file.Some? && err.Some? ==> err == Some(FieldsRequired)
  {
    if req.file.None? then Some(PassportRequired)
    else if !Truthy(req.department) || !Truthy(req.matricNumber) then Some(FieldsRequired)
    else None
  }

  /** `${matricNumber}_${Date.now()}`: the matric number, an underscore, and the clock
      reading in decimal, which can be read back. */
  function PublicId(matricNumber: string, now: nat): (id: string)
    ensures |id| > |matricNumber| + 1
    ensures id[..|matricNumber|] == matricNumber && id[|matricNumber|] == '_'
    ensures AllDigits(id[|matricNumber| + 1..]) && DecimalValue(id[|matricNumber| + 1..]) == now
    // `${Date.now()}` writes no leading zero
    ensures id[|matricNumber| + 1] == '0' ==> now == 0
  {
    var id := matricNumber + "_" + Decimal(now);
    assert id[|matricNumber| + 1..] == Decimal(now);
    DecimalRoundTrip(now);
    id
  }

  /** Every image goes to folder "passports" as an image resource, under a public id
      from which the matric number and the clock reading can be read back. */
  function UploadParamsFor(matricNumber: string, now: nat): (params: UploadParams)
    ensures params.folder == "passports" && params.resourceType == "image"
    ensures var id := params.publicId;
            && |id| > |matricNumber| + 1
            && id[..|matricNumber|] == matricNumber && id[|matricNumber|] == '_'
            && AllDigits(id[|matricNumber| + 1..]) && DecimalValue(id[|matricNumber| + 1..]) == now
            && (id[|matricNumber| + 1] == '0' ==> now == 0)
  {
    UploadParams("passports", PublicId(matricNumber, now), "image")
  }

  /** What a refused save throws. Only the `code` is inspected by the controller; the
      wording of the message follows MongoDB's and Mongoose's in outline. */
  function DbErrorInfo(e: DbError): (info: ErrorInfo)
    ensures info.code == Some(DuplicateKeyCode) <==> e.DuplicateKey?
  {
    match e
    case DuplicateKey(m) =>
      ErrorInfo(Some(DuplicateKeyCode), "E11000 duplicate key error dup key: { matricNumber: \"" + m + "\" }")
    case ValidationFailed(_) =>
      ErrorInfo(None, "Student validation failed")
  }

  /** The `catch` block: code 11000 means a duplicate matric number (400); anything
      else is a server error (500) that carries the error's message. */
  function ErrorReply(e: ErrorInfo): (r: MessageReply)
    ensures !r.success
    ensures r.status == 400 <==> e.code == Some(DuplicateKeyCode)
    ensures r.status == 400 ==> r.message == MatricExists && r.error.None?
    ensures r.status != 400 ==> r.status == 500 && r.message == "Server error" && r.error == Some(e.message)
  {
    if e.code == Some(DuplicateKeyCode) then MessageReply(400, false, MatricExists, None)
    else MessageReply(500, false, "Server error", Some(e.message))
  }

  /** The draft record built from the request and the upload result. It leaves
      `createdAt` to the schema default, and it passes validation exactly when the upload
      returned a URL and both fields are non-empty. */
  function DraftFor(department: string, matricNumber: string, up: UploadResult): (d: Draft)
    ensures d.createdAt.None?
    ensures d.department == department && d.matricNumber == matricNumber
    ensures MissingPaths(d) == [] <==> department != "" && matricNumber != "" && up.secureUrl != ""
    ensures d.passport == up.secureUrl
  {
    Draft(department, matricNumber, up.secureUrl, None)
  }

  /** The whole handler. `now` is the clock reading used in the public id; `saveTime`
      the one Mongoose stamps into `createdAt`. */
  function CreateStudent(st: Store, req: UploadRequest, now: nat, saveTime: int,
                         upload: Result<UploadResult, ErrorInfo>): (r: CreateOutcome)
    // validation comes first and touches neither the image host nor the store
    ensures Validate(req).Some? ==>
              r == CreateOutcome(MessageReply(400, false, Validate(req).value, None), st, None)
    ensures Validate(req).None? ==>
              r.uploaded == Some(UploadParamsFor(req.matricNumber.value, now))
    // success: exactly one new record, built from the request and the upload result
    ensures r.reply.status == 201 <==>
              && Validate(req).None?
              && upload.Success? && upload.value.secureUrl != ""
              && !MatricTaken(st, req.matricNumber.value)
    ensures r.reply.status == 201 ==>
              && r.reply == MessageReply(201, true, Uploaded, None)
              && |r.store.records| == |st.records| + 1
              && r.store.records[..|st.records|] == st.records
              && var s := r.store.records[|st.records|];
                 && s.department == req.department.value
                 && s.matricNumber == req.matricNumber.value
                 && s.passport == upload.value.secureUrl
                 && s.createdAt == saveTime
    ensures r.reply.status != 201 ==> r.store == st && !r.reply.success
    // a duplicate matric number is reported as such, after the image was uploaded
    ensures Validate(req).None? && upload.Success? && upload.value.secureUrl != ""
            && MatricTaken(st, req.matricNumber.value) ==>
              r.reply == MessageReply(400, false, MatricExists, None)
    ensures Validate(req).None? && upload.Failure? ==> r.reply == ErrorReply(upload.error)
    // an upload without a URL fails the save's validation, which is a server error
    ensures Validate(req).None? && upload.Success? && upload.value.secureUrl == "" ==>
              r.reply.status == 500 && r.reply.message == "Server error"
    ensures r.reply.status in {201, 400, 500}
    ensures Valid(st) ==> Valid(r.store)
  {
    match Validate(req)
    case Some(msg) => CreateOutcome(MessageReply(400, false, msg, None), st, None)
    case None =>
      var department, matricNumber := req.department.value, req.matricNumber.value;
      var params := UploadParamsFor(matricNumber, now);
      match upload
      case Failure(e) => CreateOutcome(ErrorReply(e), st, Some(params))
      case Success(up) =>
        match Insert(st, DraftFor(department, matricNumber, up), saveTime)
        case Failure(e) => CreateOutcome(ErrorReply(DbErrorInfo(e)), st, Some(params))
        case Success((st', _)) => CreateOutcome(MessageReply(201, true, Uploaded, None), st', Some(params))
  }
}

=== FILE: wrappers.dfy ===
/** Option and Result, the two failure-carrying datatypes the model uses in place of
    JavaScript's `undefined` and of thrown exceptions. */
module Wrappers {

  /** `None` stands for a value that is absent (`undefined` / `null`). */
  datatype Option<+T> = None | Some(value: T) {

    /** The value in `Some`, or `default` when absent. */
    function GetOr(default: T): T {
      match this
      case Some(v) => v
      case None => default
    }
  }

  /** The outcome of an operation that may throw: `Failure` carries what was thrown. */
  datatype Result<+R, +E> = Success(value: R) | Failure(error: E)
}
